=== FILE: README.md ===
# React Native debug monitor: relay and request-row helpers in Dafny

This project models two parts of the VS Code extension that inspects a React
Native app's storage and network traffic:

- **The request-row formatting helpers** of `network-view-provider.js`. They
  build one row of the network monitor view: the status colour, the duration
  label, the main content type, the expandable wrapper for long text, the
  header list and the body. These are pure functions, and the model writes
  them as Dafny functions (module `NetworkView`). They rest on small models
  of the JavaScript pieces they use:
  - `JsValues`: values, truthiness, `String(v)` and property lookup;
  - `Text`: `trim`, `split(';')[0]`, `includes`, `toLowerCase() ===`;
  - `Decimal`: the decimal text of a number.
- **The singleton `WebSocketServer`** of `websocket-server.js`. The React
  Native app connects to it as a client; the extension reads messages
  through `onMessage` and sends through `broadcast`. It passes every parsed
  message to `onMessage`, then, unless the handler throws, to every
  registered OPEN client. `ServerState` states each
  event as a transition on a value: `start`, a connection, a message, a
  close, `broadcast`, `stop`. It also proves invariants that hold along every
  trace of events from the constructor's state. `WsServer.WebSocketServer`
  is the object itself. Its methods update its fields in place, and each is
  proved to perform exactly the matching transition.

Sockets are ids. Each socket has a ready state (OPEN, CLOSING, CLOSED) and
an outbox: the frames sent to it. `JSON.parse` and `JSON.stringify` are given
functions (`Json.Codec`). A server's construction, and whether `onMessage`
throws, are inputs to the methods that depend on them.

One point where the code differs from what one would expect, and where the
model follows the code as written: the restart guard in `start`
(websocket-server.js:11-15) tests `this.ws`, and nothing ever assigns that
property. So `start` never closes a running server. A second `start`
overwrites `wss`, and the previous server keeps listening and keeps feeding
connections into the same client set. The new server listens only when its
port is free. The extension always restarts on the default port 8082
(extension.js:58), so there the new server never binds, and a later `stop`
closes it and leaves the old one running. `RestartKeepsPreviousServer` and
`StopAfterRestartLeavesPrevious` state this. `StartNeverClosesFromInit`
proves that the guard never fires on any trace.

## Model

| member | source | states |
|---|---|---|
| `NetworkView.StatusColor` | network-view-provider.js:5-11 | The four colours partition the statuses: green exactly for 200-299, yellow exactly for 300-399, red exactly from 400 up, grey exactly for a missing status or anything below 200 (0 and negatives included) |
| `NetworkView.Duration` | network-view-provider.js:13-18 | "Pending..." exactly when a timestamp is missing or zero. Otherwise, text ending in "ms" whose prefix is in JavaScript's integer form (no leading zero, no "-0") and reads back as `end - start`, unclamped and possibly negative |
| `NetworkView.MainType` | network-view-provider.js:26-27 | The result has no ';', no leading or trailing whitespace, and is the text before the first ';' with only whitespace trimmed around it |
| `NetworkView.MainTypeIdempotent` | network-view-provider.js:26-27 | Extracting the main type of a main type returns it unchanged |
| `NetworkView.SelectedContentType` | network-view-provider.js:22 | The value chosen is one of the two keys' values. It is truthy exactly when either key holds a truthy value, and a truthy "content-type" always wins |
| `NetworkView.ContentType` | network-view-provider.js:20-28 | Returns "" for falsy headers or when neither key holds a truthy value. A truthy "content-type" wins over "Content-Type". A truthy non-string value throws, because it has no `split`. Any returned text has no ';' and is trimmed |
| `NetworkView.ContentTypeOfMainType` | network-view-provider.js:20-28 | A header set holding only "content-type" set to a clean main type yields exactly that type |
| `NetworkView.ContentTypeIdempotent` | network-view-provider.js:20-28 | Re-extracting from a header set whose "content-type" is a previous result gives the same result |
| `NetworkView.TruncateAndMakeExpandable` | network-view-provider.js:30-42 | A falsy value, or a string of at most `maxLength` UTF-16 code units, is returned unchanged. Any other value comes back as markup from which `ExpandedText` recovers `String(text)` verbatim |
| `NetworkView.ExpandableRoundTrip` | network-view-provider.js:36-41 | The expandable markup embeds the full text verbatim: reading it back with the same id returns the text |
| `NetworkView.ShownValue` | network-view-provider.js:53-56 | The text after a header's name is `String(value)`, except when the header is routed through truncation and its value is truthy and not at most 100 code units long. Then it is different markup from which `ExpandedText` recovers `String(value)` verbatim |
| `NetworkView.HeaderFragment` | network-view-provider.js:54-56 | A header's fragment opens with the bold-tag prefix and the header's name. After them come the colon, the shown value and the closing `</div>` |
| `NetworkView.ShownStringValue` | network-view-provider.js:53-56 | Whatever the header's name, a string value is shown verbatim when its `length` (UTF-16 code units) is at most 100. A longer one is shown wrapped, with the full string recoverable from the wrapper |
| `NetworkView.ShownAstralValue` | network-view-provider.js:53-54 | More than 50 astral characters (emoji, say) exceed the limit, since each counts two code units, and are shown wrapped |
| `NetworkView.ShownOtherValue` | network-view-provider.js:53-56 | A truthy non-string value is always wrapped under an authorization key (it has no length), and shown as `String(value)` under any other key |
| `NetworkView.Fragments` | network-view-provider.js:49-57 | Exactly one fragment per key |
| `NetworkView.FormatHeaders` | network-view-provider.js:44-59 | "" for anything that is not an object, and for an object without keys |
| `NetworkView.FragmentOfField` | network-view-provider.js:49-56 | With distinct keys, the i-th fragment is built from the i-th field's own name and value |
| `NetworkView.FormatHeadersPerKey` | network-view-provider.js:49-58 | With distinct keys, the output is the fragments of the earlier keys, then this key's own fragment, then the fragments of the later keys, in key order |
| `NetworkView.HeaderFragmentNamesKey` | network-view-provider.js:53-56 | Each fragment carries its header's name right after the opening markup |
| `NetworkView.ConcatAround` | network-view-provider.js:58 | The joined text is the parts before i, part i, then the parts after it |
| `NetworkView.FormatBody` | network-view-provider.js:61-79 | "" for a falsy body. The re-indented JSON only when the body is a string starting with '{' or '[', the content type is a string including "json", and the text parses. `String(body)` in every other case, a parse failure or a content type without `includes` included |
| `NetworkView.FormatBodyVerbatimWithoutJson` | network-view-provider.js:68-78 | A non-empty text body whose content type never contains "json" is shown exactly as it is |
| `Text.JsLength` | network-view-provider.js:31 | `length` counts UTF-16 code units: between one and two per character, exactly one each for text without astral characters and two each for text made only of them |
| `Text.Trim` | network-view-provider.js:27 | The result is trimmed and sits inside the input with only whitespace around it |
| `Text.TrimIdempotent` | network-view-provider.js:27 | Trimming twice is trimming once |
| `Text.TrimAvoids` | network-view-provider.js:27 | Trimming introduces no character the input lacks |
| `Text.BeforeFirst` | network-view-provider.js:26-27 | The first piece of `split(sep)` is a prefix without `sep`, and it is either the whole string or ends right before a `sep` |
| `Text.BeforeFirstWithoutSep` | network-view-provider.js:26-27 | Text without the separator is its own first piece |
| `Text.ContainsAt` | network-view-provider.js:70 | `includes` holds exactly when the part occurs at some offset |
| `JsValues.Truthy` | network-view-provider.js:31 | The falsy values are exactly `undefined`, `null`, `false`, `0` and the empty string. Every other value, any object included, is truthy |
| `JsValues.ToString` | network-view-provider.js:78 | `String(v)` of a string is the string itself. A number becomes a canonical decimal numeral that parses back to that number, and an object becomes "[object Object]". Only the empty string converts to the empty string |
| `JsValues.Keys` | network-view-provider.js:49 | `Object.keys` lists one name per own property, in order |
| `JsValues.LookupDistinct` | network-view-provider.js:51 | In an object with distinct keys, `headers[key]` is that key's own value |
| `Decimal.IntToDecimal` | network-view-provider.js:17 | The rendered text is in JavaScript's integer form: digits without a leading zero, with a '-' exactly for negative numbers and never "-0" |
| `Decimal.IntToDecimalRoundTrip` | network-view-provider.js:17 | Reading back the decimal text of any integer gives that integer |
| `Decimal.CanonicalUnique` | network-view-provider.js:17 | Any text in integer form that reads as n is exactly the text rendered for n, so the duration's text is fixed by its value |
| `Decimal.CanonicalDigitsRoundTrip` | network-view-provider.js:17 | Digits without a leading zero are the rendering of their own value |
| `Decimal.IntToDecimalInjective` | network-view-provider.js:17 | Different durations never render to the same text |
| `ServerState.Init` | websocket-server.js:4-8 | A fresh relay has no server, an empty client set and no handler |
| `ServerState.StartSpec` | websocket-server.js:10-50 | The guard closes `ws` when set, never `wss`. A constructed server replaces `wss` and its port is recorded. From a consistent state, a `Created` server listens exactly when no listening server holds its port. Clients, sockets, handler and handler calls are untouched. A server made on a port another process holds (`CreatedUnbound`) replaces `wss` too but never listens. A throwing constructor keeps `wss`, the servers and the unbound set. When `ws` is unset, no server is closed, and a throwing constructor changes nothing |
| `ServerState.AcceptSpec` | websocket-server.js:21-45 | A connection appends exactly its socket to the client set, marks it OPEN and gives it an outbox holding exactly one GET_STORAGE frame. Nothing else changes |
| `ServerState.Delivered` | websocket-server.js:53-57 | The `forEach` over the clients, in order: sending keeps the set of known sockets |
| `ServerState.DeliveredAt` | websocket-server.js:53-57 | With no client listed twice, a known socket's outbox gains the frame exactly once when the socket is listed and OPEN, and is unchanged otherwise |
| `ServerState.BroadcastSpec` | websocket-server.js:52-58 | Only outboxes change, and no socket is added or dropped |
| `ServerState.BroadcastReachesExactlyOpen` | websocket-server.js:52-58 | With the client set free of duplicates, a broadcast appends the frame to the outbox of every registered OPEN client and to no other, and leaves the client set unchanged |
| `ServerState.ReceiveSpec` | websocket-server.js:25-36 | A frame that does not parse changes nothing. A parsed one is logged to `onMessage` when set, and only then. It is then sent to the clients exactly as `Delivered` does, unless the handler threw. Clients, servers, `ws`, `wss` and the handler are never touched |
| `ServerState.ReceiveParsedRelays` | websocket-server.js:25-35 | For every known socket: when no handler threw, a parsed message reaches it exactly once if it is a registered OPEN client, the sender included, and not at all otherwise. A throwing handler leaves every outbox as it was |
| `ServerState.Remove` | websocket-server.js:40 | Deleting a client keeps exactly the other clients and keeps the set duplicate-free |
| `ServerState.RemoveLength` | websocket-server.js:40 | Deleting removes one entry when the client is registered and none otherwise |
| `ServerState.CloseSpec` | websocket-server.js:38-41 | A close marks its socket CLOSED and deletes it from the client set. Nothing else changes |
| `ServerState.CloseRemovesOnlyItself` | websocket-server.js:38-41 | After a close, its client is gone, every other client stays registered, and the set shrinks by at most one |
| `ServerState.ClosingSpec` | websocket-server.js:54 | A socket whose peer starts closing is no longer OPEN but stays registered |
| `ServerState.StopSpec` | websocket-server.js:60-67 | With a server, stop closes exactly that server, clears `wss` and empties the client set. Without one it changes nothing. Sockets, outboxes, `ws`, the handler and its calls stay as they are |
| `ServerState.StopIdempotent` | websocket-server.js:60-67 | Calling `stop` twice gives the same state as calling it once |
| `ServerState.SetOnMessageSpec` | extension.js:24-30 | Assigning `onMessage` replaces the single handler slot and nothing else |
| `ServerState.RestartKeepsPreviousServer` | websocket-server.js:10-18 | A second `start` on a running relay overwrites `wss` and keeps the clients. The previous server keeps listening. The new one listens exactly when its port is free, and never on the previous server's port |
| `ServerState.StopAfterRestartLeavesPrevious` | extension.js:58 | After a restart on the running server's own port, `stop` leaves the previous server listening and the new one not listening |
| `ServerState.InitReachable` | websocket-server.js:4-8 | The constructor's state satisfies the relay invariant |
| `ServerState.BroadcastKeepsReachable` | websocket-server.js:52-58 | A broadcast preserves the relay invariant |
| `ServerState.NextKeepsReachable` | websocket-server.js:3-67 | Every event preserves the invariant: clients are duplicate-free and known, `ws` stays unset, no two listening servers share a port, and each socket's first frame is GET_STORAGE |
| `ServerState.RunKeepsReachable` | websocket-server.js:3-67 | The invariant holds along every trace of events the relay can receive |
| `ServerState.StartNeverClosesFromInit` | websocket-server.js:11-15 | On every trace from a fresh relay, `start` closes no server |
| `WsServer.WebSocketServer.constructor` | websocket-server.js:4-8 | A new object is in the initial state |
| `WsServer.WebSocketServer.Start` | websocket-server.js:10-50 | Performs `StartSpec` on the object's fields. The port defaults to 8082 |
| `WsServer.WebSocketServer.Accept` | websocket-server.js:21-45 | Performs `AcceptSpec` |
| `WsServer.WebSocketServer.Broadcast` | websocket-server.js:52-58 | The loop over the client set performs `BroadcastSpec`, appending only to the outboxes of OPEN clients |
| `WsServer.WebSocketServer.Receive` | websocket-server.js:25-36 | Performs `ReceiveSpec`, calling `Broadcast` as the handler does |
| `WsServer.WebSocketServer.Close` | websocket-server.js:38-41 | Performs `CloseSpec` |
| `WsServer.WebSocketServer.BeginClosing` | websocket-server.js:54 | Performs `ClosingSpec` |
| `WsServer.WebSocketServer.Stop` | websocket-server.js:60-67 | Performs `StopSpec` |
| `WsServer.WebSocketServer.SetOnMessage` | extension.js:24-30 | Performs `SetOnMessageSpec` |

## Left out

- `getNetworkWebviewContent` and its embedded page script (network-view-provider.js:81-577): HTML generation and browser DOM code.
- extension.js: command registration, the webview panel and its message wiring, and the storage page template. They are UI glue over the VS Code API. Only the `onMessage` assignment is modelled, as `SetOnMessage`.
- `JSON.parse` and `JSON.stringify` are given functions, not modelled: `Json.Codec` for the relay, and `reformat` in `FormatBody`.
- `Date.now()` and `Math.random()` in the expandable element's id are not modelled. The id is an input: `id` in `TruncateAndMakeExpandable`, and `idOf(key)` in `FormatHeaders`.
- The `ws` library is abstract: sockets are ids, and each event is one atomic step. Not modelled: asynchronous delivery, interleaving of callbacks, and when the library changes `readyState`. `BeginClosing` and `Close` stand for its state changes. Binding is modelled only as port conflict among the relay's own servers: a server whose port one of the relay's own listening servers holds never listens. A port held by another process is the `CreatedUnbound` input: the constructor returns, the server replaces `wss` and records its port, and it never listens. A port out of range is the `ConstructorThrew` input: the constructor throws and the catch at websocket-server.js:47 runs. The 'error' event an unbound server emits has no listener in the source, and the uncaught exception that follows is not modelled. Logging to the console is left out.
- `NetworkView.StatusColor`, `NetworkView.Duration`: statuses and timestamps are integers or missing. JavaScript's coercion of strings, `NaN` and fractional numbers is not modelled.
- `JsValues.ToString`: numbers are integers, rendered in plain decimal. Exponent notation for very large numbers is not modelled. Arrays, functions and symbols are not modelled as values: an object renders as "[object Object]".
- `NetworkView.TruncateAndMakeExpandable`: only strings have a `length`. An object carrying its own `length` property is treated as having none.
- `NetworkView.FormatHeaders`: keys are listed in field order. JavaScript lists integer-like keys first; that reordering is not modelled.
- `NetworkView.FormatBody`: a content type that is a truthy non-string is treated as lacking `includes`. An object that supplies its own `includes` method is not modelled.
- `Text.EqualsLowered`: `toLowerCase` is modelled on ASCII letters only. For comparison with "authorization" this is still exact. Only two non-ASCII characters lower to text containing ASCII letters. U+212A (the Kelvin sign) lowers to 'k', which the word lacks. U+0130 lowers to "i" followed by U+0307, which cannot equal the word.
- `NetworkView.TruncateAndMakeExpandable`, `NetworkView.ShownStringValue`, `Text.JsLength`: strings are sequences of Unicode scalar values. A JavaScript string holding a lone surrogate cannot be represented, and its `length` is not modelled.

=== FILE: decimal.dfy ===
/**
 * Decimal text of integers, as JavaScript renders an integral number in a
 * template literal or through `String(n)`, together with a reader that
 * recovers the integer from that text.
 */
module Decimal {
  import opened Options

  predicate IsDigit(c: char) {
    '0' <= c <= '9'
  }

  predicate AllDigits(s: string) {
    forall i :: 0 <= i < |s| ==> IsDigit(s[i])
  }

  function DigitChar(d: nat): (c: char)
    requires d < 10
    ensures IsDigit(c) && c as int - '0' as int == d
  {
    "0123456789"[d]
  }

  function DigitValue(c: char): nat
    requires IsDigit(c)
  {
    c as int - '0' as int
  }

  /** Digits without a superfluous leading zero: "0", or a non-zero first digit. */
  predicate CanonicalDigits(d: string) {
    |d| >= 1 && AllDigits(d) && (d[0] == '0' ==> |d| == 1)
  }

  /** The text JavaScript gives an integer: canonical digits, with '-' only before a non-zero value. */
  predicate Canonical(t: string) {
    CanonicalDigits(t) || (|t| >= 2 && t[0] == '-' && t[1] != '0' && CanonicalDigits(t[1..]))
  }

  /** Decimal text of a natural number: no sign and no leading zero. */
  function NatToDecimal(n: nat): (r: string)
    ensures CanonicalDigits(r)
    ensures r[0] == '0' ==> n == 0
    decreases n
  {
    if n < 10 then [DigitChar(n)] else NatToDecimal(n / 10) + [DigitChar(n % 10)]
  }

  /** Decimal text of an integer: a leading '-' for negative values. */
  function IntToDecimal(n: int): (r: string)
    ensures |r| >= 1 && Canonical(r)
    ensures (r[0] == '-') <==> n < 0
  {
    if n < 0 then "-" + NatToDecimal(-n) else NatToDecimal(n)
  }

  /** The value of a string of decimal digits, most significant first. */
  function DigitsValue(s: string): nat
    requires AllDigits(s)
  {
    if s == [] then 0 else DigitsValue(s[..|s| - 1]) * 10 + DigitValue(s[|s| - 1])
  }

  /** Reads an optional '-' followed by at least one digit. */
  function ParseInt(s: string): (r: Option<int>)
    ensures r.Some? ==> |s| >= 1
  {
    if |s| >= 2 && s[0] == '-' && AllDigits(s[1..]) then Some(-(DigitsValue(s[1..]) as int))
    else if |s| >= 1 && AllDigits(s) then Some(DigitsValue(s))
    else None
  }

  lemma {:induction false} NatToDecimalValue(n: nat)
    ensures DigitsValue(NatToDecimal(n)) == n
    decreases n
  {
    var r := NatToDecimal(n);
    if n >= 10 {
      NatToDecimalValue(n / 10);
      assert r[..|r| - 1] == NatToDecimal(n / 10);
    }
  }

  /** Reading back the decimal text of any integer gives that integer. */
  lemma {:induction false} IntToDecimalRoundTrip(n: int)
    ensures ParseInt(IntToDecimal(n)) == Some(n)
  {
    var d := IntToDecimal(n);
    if n < 0 {
      var m: nat := -n;
      var digits := NatToDecimal(m);
      NatToDecimalValue(m);
      assert d == "-" + digits;
      assert d[1..] == digits;
      assert |d| >= 2 && d[0] == '-' && AllDigits(d[1..]);
    } else {
      var digits := NatToDecimal(n);
      NatToDecimalValue(n);
      assert d == digits;
      assert d[0] != '-';
    }
  }

  /** A digit character's value names that character back. */
  lemma {:induction false} DigitCharValue(c: char)
    requires IsDigit(c)
    ensures DigitChar(DigitValue(c)) == c
  {
    var d := DigitChar(DigitValue(c));
    assert d as int == c as int;
  }

  /** Canonical digits are the decimal text of their own value. */
  lemma {:induction false} CanonicalDigitsRoundTrip(d: string)
    requires CanonicalDigits(d)
    ensures NatToDecimal(DigitsValue(d)) == d
    decreases |d|
  {
    var init, x := d[..|d| - 1], d[|d| - 1];
    var v := DigitsValue(d);
    DigitCharValue(x);
    if |d| == 1 {
      assert init == [];
      assert v == DigitValue(x);
      assert d == [x];
    } else {
      assert init[0] == d[0];
      assert CanonicalDigits(init);
      CanonicalDigitsRoundTrip(init);
      var a := DigitsValue(init);
      assert a != 0 by {
        assert NatToDecimal(0) == "0";
      }
      assert v == a * 10 + DigitValue(x);
      assert v / 10 == a && v % 10 == DigitValue(x);
      assert NatToDecimal(v) == NatToDecimal(a) + [DigitChar(DigitValue(x))];
      assert d == init + [x];
    }
  }

  /** A canonical text is the only one that renders its value: reading it and rendering again gives it back. */
  lemma {:induction false} CanonicalUnique(t: string, n: int)
    requires Canonical(t) && ParseInt(t) == Some(n)
    ensures t == IntToDecimal(n)
  {
    if CanonicalDigits(t) {
      assert IsDigit(t[0]);
      assert n == DigitsValue(t) as int;
      CanonicalDigitsRoundTrip(t);
    } else {
      var digits := t[1..];
      var m: nat := DigitsValue(digits);
      assert n == -(m as int);
      CanonicalDigitsRoundTrip(digits);
      assert m != 0 by {
        assert NatToDecimal(0) == "0";
      }
      assert IntToDecimal(n) == "-" + NatToDecimal(m);
      assert t == "-" + digits;
    }
  }

  /** Different integers never share their decimal text. */
  lemma {:induction false} IntToDecimalInjective(m: int, n: int)
    requires IntToDecimal(m) == IntToDecimal(n)
    ensures m == n
  {
    IntToDecimalRoundTrip(m);
    IntToDecimalRoundTrip(n);
  }
}

=== FILE: js_values.dfy ===
/**
 * The JavaScript values the request-row helpers receive: header maps, bodies
 * and header values. Numbers are integral here; an object is its own
 * properties in key order.
 */
module JsValues {
  import Decimal
  import opened Options

  datatype Value =
    | Undefined
    | Null
    | Bool(b: bool)
    | Num(n: int)
    | Str(s: string)
    | Obj(fields: seq<(string, Value)>)

  /**
   * The value is truthy: `!v` is false. The falsy values are exactly
   * `undefined`, `null`, `false`, `0` and the empty string.
   */
  function Truthy(v: Value): (t: bool)
    ensures !t <==> v in {Undefined, Null, Bool(false), Num(0), Str("")}
  {
    match v
    case Undefined => false
    case Null => false
    case Bool(b) => b
    case Num(n) => n != 0
    case Str(s) => s != ""
    case Obj(_) => true
  }

  /**
   * `String(v)`, also what a template literal inserts for `${v}`. A string is
   * itself, a number is its canonical decimal numeral, and only the empty
   * string converts to the empty string.
   */
  function ToString(v: Value): (r: string)
    ensures v.Str? ==> r == v.s
    ensures v.Num? ==> Decimal.Canonical(r) && Decimal.ParseInt(r) == Some(v.n)
    ensures v.Obj? ==> r == "[object Object]"
    ensures r == "" <==> v == Str("")
  {
    match v
    case Undefined => "undefined"
    case Null => "null"
    case Bool(b) => if b then "true" else "false"
    case Num(n) =>
      Decimal.IntToDecimalRoundTrip(n);
      Decimal.IntToDecimal(n)
    case Str(s) => s
    case Obj(_) => "[object Object]"
  }

  /** The value of the first field named `key`, or `undefined`. */
  function Lookup(fields: seq<(string, Value)>, key: string): Value {
    if fields == [] then Undefined
    else if fields[0].0 == key then fields[0].1
    else Lookup(fields[1..], key)
  }

  /** Property access `v[key]`: only objects carry named properties here. */
  function Get(v: Value, key: string): Value {
    if v.Obj? then Lookup(v.fields, key) else Undefined
  }

  /** The names of an object's own properties, in order (`Object.keys`). */
  function Keys(fields: seq<(string, Value)>): (ks: seq<string>)
    ensures |ks| == |fields|
    ensures forall i :: 0 <= i < |fields| ==> ks[i] == fields[i].0
  {
    if fields == [] then [] else [fields[0].0] + Keys(fields[1..])
  }

  /** A real object never has two properties with one name. */
  predicate DistinctKeys(fields: seq<(string, Value)>) {
    forall i, j :: 0 <= i < j < |fields| ==> fields[i].0 != fields[j].0
  }

  /** In an object with distinct keys, looking up a key gives its own field's value. */
  lemma {:induction false} LookupDistinct(fields: seq<(string, Value)>, i: nat)
    requires DistinctKeys(fields) && i < |fields|
    ensures Lookup(fields, fields[i].0) == fields[i].1
  {
    if i > 0 {
      assert fields[0].0 != fields[i].0;
      assert fields[1..][i - 1] == fields[i];
      LookupDistinct(fields[1..], i - 1);
    }
  }
}

=== FILE: json.dfy ===
/**
 * JSON documents as the relay sees them. Parsing and serialising are not
 * modelled: a `Codec` supplies `JSON.parse` (partial: `None` when it throws)
 * and `JSON.stringify` as given functions.
 */
module Json {
  import opened Options

  datatype Json =
    | JNull
    | JBool(b: bool)
    | JNumber(n: int)
    | JString(s: string)
    | JArray(items: seq<Json>)
    | JObject(members: seq<(string, Json)>)

  datatype Codec = Codec(parse: string -> Option<Json>, serialize: Json -> string)

  /** `{ type: 'GET_STORAGE' }`, the request a new client receives first. */
  const GetStorage: Json := JObject([("type", JString("GET_STORAGE"))])
}

=== FILE: network_view.dfy ===
/**
 * The helpers that format one row of the network monitor view: the status
 * colour, the duration label, the content type, the expandable wrapper for
 * long text, the header list and the body.
 */
module NetworkView {
  import opened Options
  import opened JsValues
  import opened Text
  import Decimal

  // ---------------------------------------------------------------- status colour

  const PendingGrey := "#888888"
  const SuccessGreen := "#1bc020"
  const RedirectYellow := "#f0ce11"
  const ErrorRed := "#ef2222"

  /**
   * getStatusColor: `None` is a missing status. The four colours split the
   * statuses: green for 2xx, yellow for 3xx, red from 400 up, grey for a
   * missing status and everything below 200 (zero and negatives included).
   */
  function StatusColor(status: Option<int>): (c: string)
    ensures c == SuccessGreen <==> status.Some? && 200 <= status.value < 300
    ensures c == RedirectYellow <==> status.Some? && 300 <= status.value < 400
    ensures c == ErrorRed <==> status.Some? && 400 <= status.value
    ensures c == PendingGrey <==> status.None? || status.value < 200
  {
    if status.None? || status.value == 0 then PendingGrey
    else if 200 <= status.value < 300 then SuccessGreen
    else if 300 <= status.value < 400 then RedirectYellow
    else if status.value >= 400 then ErrorRed
    else PendingGrey
  }

  // ---------------------------------------------------------------- duration

  const PendingLabel := "Pending..."

  /** A timestamp that is present and not zero (a truthy number). */
  predicate IsSetTime(t: Option<int>) {
    t.Some? && t.value != 0
  }

  /**
   * getDuration: "Pending..." unless both timestamps are set; otherwise the
   * decimal text of `end - start`, unclamped, followed by "ms".
   */
  function Duration(start: Option<int>, end: Option<int>): (r: string)
    ensures r == PendingLabel <==> !(IsSetTime(start) && IsSetTime(end))
    ensures IsSetTime(start) && IsSetTime(end) ==>
              |r| > 2 && r[|r| - 2..] == "ms" &&
              Decimal.Canonical(r[..|r| - 2]) &&
              Decimal.ParseInt(r[..|r| - 2]) == Some(end.value - start.value)
  {
    if !IsSetTime(start) || !IsSetTime(end) then PendingLabel
    else
      var digits := Decimal.IntToDecimal(end.value - start.value);
      Decimal.IntToDecimalRoundTrip(end.value - start.value);
      assert (digits + "ms")[..|digits|] == digits;
      digits + "ms"
  }

  // ---------------------------------------------------------------- content type

  /** What a call returns, or that it throws (a TypeError the helper does not catch). */
  datatype Outcome<T> = Returned(value: T) | Threw

  /** `headers['content-type'] || headers['Content-Type']`. */
  function SelectedContentType(headers: Value): (ct: Value)
    ensures ct == Get(headers, "content-type") || ct == Get(headers, "Content-Type")
    ensures Truthy(ct) <==>
              Truthy(Get(headers, "content-type")) || Truthy(Get(headers, "Content-Type"))
    ensures Truthy(Get(headers, "content-type")) ==> ct == Get(headers, "content-type")
  {
    var lower := Get(headers, "content-type");
    if Truthy(lower) then lower else Get(headers, "Content-Type")
  }

  /** `s.split(';')[0].trim()`: the main MIME type of a Content-Type value. */
  function MainType(s: string): (r: string)
    ensures ';' !in r
    ensures IsTrimmed(r)
    ensures exists i :: WhitespaceAround(BeforeFirst(s, ';'), r, i)
  {
    var before := BeforeFirst(s, ';');
    TrimAvoids(before, ';');
    Trim(before)
  }

  /** Extracting the main type of a main type gives it back. */
  lemma {:induction false} MainTypeIdempotent(s: string)
    ensures MainType(MainType(s)) == MainType(s)
  {
    var m := MainType(s);
    BeforeFirstWithoutSep(m, ';');
    TrimFixesTrimmed(m);
  }

  /**
   * getContentType: "" for falsy headers or when neither key holds a truthy
   * value; the lower-case key wins over "Content-Type"; a truthy value that
   * is not a string has no `split`, so the call throws.
   */
  function ContentType(headers: Value): (r: Outcome<string>)
    ensures !Truthy(headers) ==> r == Returned("")
    ensures Truthy(headers) && !Truthy(SelectedContentType(headers)) ==> r == Returned("")
    ensures r == Threw <==>
              Truthy(headers) && Truthy(SelectedContentType(headers)) &&
              !SelectedContentType(headers).Str?
    ensures Truthy(headers) && SelectedContentType(headers).Str? ==>
              r == Returned(MainType(SelectedContentType(headers).s))
    ensures r.Returned? ==> ';' !in r.value && IsTrimmed(r.value)
  {
    if !Truthy(headers) then Returned("")
    else
      var ct := SelectedContentType(headers);
      if !Truthy(ct) then Returned("")
      else if ct.Str? then Returned(MainType(ct.s))
      else Threw
  }

  /** A header set holding only "content-type" with a clean main type yields that type. */
  lemma {:induction false} ContentTypeOfMainType(m: string)
    requires ';' !in m && IsTrimmed(m)
    ensures ContentType(Obj([("content-type", Str(m))])) == Returned(m)
  {
    var fields := [("content-type", Str(m))];
    assert Lookup(fields, "content-type") == Str(m);
    if m == "" {
      assert fields[0].0 != "Content-Type" by {
        assert fields[0].0[0] == 'c' && "Content-Type"[0] == 'C';
      }
      assert fields[1..] == [];
      assert Lookup(fields, "Content-Type") == Undefined;
      assert SelectedContentType(Obj(fields)) == Undefined;
    } else {
      assert SelectedContentType(Obj(fields)) == Str(m);
      BeforeFirstWithoutSep(m, ';');
      TrimFixesTrimmed(m);
      assert MainType(m) == m;
    }
  }

  /**
   * Re-extracting from a header set whose "content-type" is a previous
   * result returns that result unchanged.
   */
  lemma {:induction false} ContentTypeIdempotent(headers: Value)
    requires ContentType(headers).Returned?
    ensures ContentType(Obj([("content-type", Str(ContentType(headers).value))])) ==
            ContentType(headers)
  {
    ContentTypeOfMainType(ContentType(headers).value);
  }

  // ---------------------------------------------------------------- expandable text

  const DefaultMaxLength := 100

  function ExpandableOpen(id: string): string {
    "\n        <div class=\"expandable-content\" id=\"" + id + "\">\n            "
  }

  const ExpandableClose :=
    "\n        </div>\n        <a class=\"expand-collapse\" onclick=\"toggleExpand(this)\">Show more</a>\n    "

  /** The markup that shows `text` collapsed, with a "Show more" toggle. */
  function ExpandableMarkup(id: string, text: string): string {
    ExpandableOpen(id) + text + ExpandableClose
  }

  /** Reads back the text wrapped by `ExpandableMarkup` with the given id. */
  function ExpandedText(markup: string, id: string): Option<string> {
    var open := ExpandableOpen(id);
    if |markup| >= |open| + |ExpandableClose| && markup[..|open|] == open &&
       markup[|markup| - |ExpandableClose|..] == ExpandableClose
    then Some(markup[|open|..|markup| - |ExpandableClose|])
    else None
  }

  /** The wrapper holds the full text verbatim. */
  lemma {:induction false} ExpandableRoundTrip(id: string, text: string)
    ensures ExpandedText(ExpandableMarkup(id, text), id) == Some(text)
  {
    var open := ExpandableOpen(id);
    var m := ExpandableMarkup(id, text);
    assert m[..|open|] == open;
    assert m[|m| - |ExpandableClose|..] == ExpandableClose;
    assert m[|open|..|m| - |ExpandableClose|] == text;
  }

  /**
   * `text.length <= maxLength`, counted in UTF-16 code units; only strings
   * have a length here, and `undefined <= n` is false.
   */
  predicate FitsWithin(text: Value, maxLength: int) {
    text.Str? && JsLength(text.s) <= maxLength
  }

  /**
   * truncateAndMakeExpandable: a falsy or short enough value passes through
   * unchanged; anything else comes back as the expandable markup holding
   * `String(text)` verbatim. `id` stands for the generated element id.
   */
  function TruncateAndMakeExpandable(text: Value, maxLength: int, id: string): (r: Value)
    ensures !Truthy(text) || FitsWithin(text, maxLength) ==> r == text
    ensures Truthy(text) && !FitsWithin(text, maxLength) ==>
              r.Str? && ExpandedText(r.s, id) == Some(ToString(text))
  {
    if !Truthy(text) || FitsWithin(text, maxLength) then text
    else
      ExpandableRoundTrip(id, ToString(text));
      Str(ExpandableMarkup(id, ToString(text)))
  }

  // ---------------------------------------------------------------- headers

  const HeaderOpen := "<div class=\"request-headers\"><strong>"
  const HeaderMid := ":</strong> "
  const HeaderClose := "</div>"

  /** `key.toLowerCase() === 'authorization'`. */
  predicate IsAuthorization(key: string) {
    EqualsLowered(key, "authorization")
  }

  /** The header value goes through truncateAndMakeExpandable. */
  predicate RoutedThroughTruncation(key: string, value: Value) {
    IsAuthorization(key) || (value.Str? && JsLength(value.s) > DefaultMaxLength)
  }

  /**
   * The text shown after the header name: `String(value)` itself, unless the
   * value is routed through truncation and is truthy and too long, when it is
   * the expandable markup holding `String(value)` verbatim.
   */
  function ShownValue(key: string, value: Value, id: string): (r: string)
    ensures RoutedThroughTruncation(key, value) && Truthy(value) &&
            !FitsWithin(value, DefaultMaxLength) ==>
              r != ToString(value) && ExpandedText(r, id) == Some(ToString(value))
    ensures (!RoutedThroughTruncation(key, value) || !Truthy(value) ||
             FitsWithin(value, DefaultMaxLength)) ==> r == ToString(value)
  {
    if RoutedThroughTruncation(key, value)
    then ToString(TruncateAndMakeExpandable(value, DefaultMaxLength, id))
    else ToString(value)
  }

  /** The fragment for one header: the bold name, then the shown value. */
  function HeaderFragment(key: string, value: Value, id: string): (r: string)
    ensures HeaderOpen + key <= r
    ensures r[|HeaderOpen| + |key|..] == HeaderMid + ShownValue(key, value, id) + HeaderClose
  {
    HeaderOpen + key + HeaderMid + ShownValue(key, value, id) + HeaderClose
  }

  /**
   * A string value is shown verbatim when it has at most 100 UTF-16 code units,
   * whatever the header's name, and wrapped, still verbatim, when longer.
   */
  lemma {:induction false} ShownStringValue(key: string, s: string, id: string)
    ensures JsLength(s) <= DefaultMaxLength ==> ShownValue(key, Str(s), id) == s
    ensures JsLength(s) > DefaultMaxLength ==>
              ShownValue(key, Str(s), id) != s &&
              ExpandedText(ShownValue(key, Str(s), id), id) == Some(s)
  {
    if JsLength(s) > DefaultMaxLength {
      assert |ShownValue(key, Str(s), id)| > |s|;
    }
  }

  /**
   * Text made of astral characters (emoji, say) counts two code units per
   * character, so more than 50 of them already exceed the limit and are wrapped.
   */
  lemma {:induction false} ShownAstralValue(key: string, s: string, id: string)
    requires |s| > DefaultMaxLength / 2 && forall i :: 0 <= i < |s| ==> IsAstral(s[i])
    ensures ShownValue(key, Str(s), id) != s
    ensures ExpandedText(ShownValue(key, Str(s), id), id) == Some(s)
  {
    ShownStringValue(key, s, id);
  }

  /**
   * A truthy value that is not a string has no length, so under an
   * authorization header it is always wrapped, and under any other header
   * it is shown as `String(value)`.
   */
  lemma {:induction false} ShownOtherValue(key: string, value: Value, id: string)
    requires Truthy(value) && !value.Str?
    ensures IsAuthorization(key) ==>
              ShownValue(key, value, id) == ExpandableMarkup(id, ToString(value))
    ensures !IsAuthorization(key) ==> ShownValue(key, value, id) == ToString(value)
  {
  }

  /** One fragment per key, in key order, each with that header's value (`map`). */
  function Fragments(keys: seq<string>, headers: Value, idOf: string -> string): (frags: seq<string>)
    ensures |frags| == |keys|
  {
    seq(|keys|, i requires 0 <= i < |keys| =>
      HeaderFragment(keys[i], Get(headers, keys[i]), idOf(keys[i])))
  }

  /** `join('')`. */
  function Concat(parts: seq<string>): string {
    if parts == [] then "" else parts[0] + Concat(parts[1..])
  }

  lemma {:induction false} ConcatAppend(a: seq<string>, b: seq<string>)
    ensures Concat(a + b) == Concat(a) + Concat(b)
  {
    if a == [] {
      assert a + b == b;
    } else {
      assert (a + b)[0] == a[0];
      assert (a + b)[1..] == a[1..] + b;
      ConcatAppend(a[1..], b);
    }
  }

  /** The joined text is the parts before `i`, part `i`, then the parts after it. */
  lemma {:induction false} ConcatAround(parts: seq<string>, i: nat)
    requires i < |parts|
    ensures Concat(parts) == Concat(parts[..i]) + parts[i] + Concat(parts[i + 1..])
  {
    var left, right := parts[..i], parts[i..];
    assert parts == left + right;
    ConcatAppend(left, right);
    assert right[0] == parts[i] && right[1..] == parts[i + 1..];
  }

  /**
   * formatHeaders: "" unless the headers are an object; otherwise one
   * fragment per key in key order. `idOf(key)` stands for the id generated
   * when that header's value is wrapped.
   */
  function FormatHeaders(headers: Value, idOf: string -> string): (r: string)
    ensures !headers.Obj? ==> r == ""
    ensures headers == Obj([]) ==> r == ""
  {
    if !Truthy(headers) || !headers.Obj? then ""
    else Concat(Fragments(Keys(headers.fields), headers, idOf))
  }

  /** With distinct keys, the i-th fragment shows the i-th field's name and value. */
  lemma {:induction false} FragmentOfField(fields: seq<(string, Value)>, idOf: string -> string, i: nat)
    requires DistinctKeys(fields) && i < |fields|
    ensures Fragments(Keys(fields), Obj(fields), idOf)[i] ==
            HeaderFragment(fields[i].0, fields[i].1, idOf(fields[i].0))
  {
    LookupDistinct(fields, i);
  }

  /**
   * In an object with distinct keys, the output is the fragments of the keys
   * before the i-th, then the i-th header's own fragment with its own value,
   * then the fragments of the keys after it.
   */
  lemma {:induction false} FormatHeadersPerKey(fields: seq<(string, Value)>, idOf: string -> string, i: nat)
    requires DistinctKeys(fields) && i < |fields|
    ensures var frags := Fragments(Keys(fields), Obj(fields), idOf);
            FormatHeaders(Obj(fields), idOf) ==
              Concat(frags[..i]) +
              HeaderFragment(fields[i].0, fields[i].1, idOf(fields[i].0)) +
              Concat(frags[i + 1..])
  {
    var frags := Fragments(Keys(fields), Obj(fields), idOf);
    assert FormatHeaders(Obj(fields), idOf) == Concat(frags);
    ConcatAround(frags, i);
    FragmentOfField(fields, idOf, i);
  }

  /** Each header's fragment begins with the header's name. */
  lemma {:induction false} HeaderFragmentNamesKey(key: string, value: Value, id: string)
    ensures var frag := HeaderFragment(key, value, id);
            |frag| >= |HeaderOpen| + |key| && frag[|HeaderOpen|..|HeaderOpen| + |key|] == key
  {
    var frag := HeaderFragment(key, value, id);
    var head := HeaderOpen + key;
    assert head <= frag;
    assert frag[|HeaderOpen|..|HeaderOpen| + |key|] == head[|HeaderOpen|..];
  }

  // ---------------------------------------------------------------- body

  /**
   * The body is a string starting with '{' or '[' and the content type is a
   * string that includes "json". A truthy content type of another kind has
   * no `includes`; the TypeError is caught and the body shown as it is.
   */
  predicate PrettyPrintAttempted(body: Value, contentType: Value) {
    body.Str? && (StartsWithChar(body.s, '{') || StartsWithChar(body.s, '[')) &&
    contentType.Str? && Contains(contentType.s, "json")
  }

  /**
   * formatBody: "" for a falsy body; the re-indented JSON when pretty
   * printing is attempted and the text parses; `String(body)` otherwise,
   * a parse failure included. `reformat` stands for
   * `JSON.stringify(JSON.parse(text), null, 2)`, `None` when the parse throws.
   */
  function FormatBody(body: Value, contentType: Value, reformat: string -> Option<string>): (r: string)
    ensures !Truthy(body) ==> r == ""
    ensures PrettyPrintAttempted(body, contentType) && reformat(body.s).Some? ==>
              r == reformat(body.s).value
    ensures Truthy(body) &&
            !(PrettyPrintAttempted(body, contentType) && reformat(body.s).Some?) ==>
              r == ToString(body)
  {
    if !Truthy(body) then ""
    else if PrettyPrintAttempted(body, contentType) && reformat(body.s).Some?
    then reformat(body.s).value
    else ToString(body)
  }

  /** A non-empty text body whose content type never mentions "json" is shown verbatim. */
  lemma {:induction false} FormatBodyVerbatimWithoutJson(s: string, contentType: string,
                                      reformat: string -> Option<string>)
    requires s != ""
    requires forall i :: !OccursAt(contentType, "json", i)
    ensures FormatBody(Str(s), Str(contentType), reformat) == s
  {
    ContainsAt(contentType, "json");
  }
}

=== FILE: options.dfy ===
/** The optional value used for JavaScript's `undefined`/`null` and for partial operations. */
module Options {
  datatype Option<+T> = None | Some(value: T)
}

=== FILE: server_state.dfy ===
/**
 * The state of the singleton WebSocket relay and its transitions, as values.
 * Each event the relay reacts to (start, a connection, a message, a close,
 * a broadcast, stop) is one atomic step. The socket layer is abstract: a
 * socket is an id with a ready state and the list of frames sent to it.
 */
module ServerState {
  import opened Options
  import opened Json

  type ServerId = nat
  type ClientId = nat
  type HandlerId = nat

  /** The port `start` listens on when none is given. */
  const DefaultPort := 8082

  /** A server-side socket is OPEN when its 'connection' event fires. */
  datatype ReadyState = Open | Closing | Closed

  /**
   * What `new WebSocket.Server({ port })` does: returns a new server, returns
   * a new server that will never bind because a process outside the relay
   * holds the port (the failure arrives later as an 'error' event), or throws.
   */
  datatype Construction =
    | Created(server: ServerId)
    | CreatedUnbound(server: ServerId)
    | ConstructorThrew

  datatype State = State(
    wss: Option<ServerId>,                // this.wss
    // this.ws, read by the restart guard; nothing assigns it, so its type
    // here is arbitrary (StartNeverClosesFromInit: the guard never fires)
    ws: Option<ServerId>,
    clients: seq<ClientId>,               // this.clients, a Set in insertion order
    onMessage: Option<HandlerId>,         // this.onMessage
    servers: map<ServerId, int>,          // every server constructed, with its port
    closed: set<ServerId>,                // servers whose close() was called
    unbound: set<ServerId>,               // servers whose port was already taken
    readyState: map<ClientId, ReadyState>,  // every accepted socket
    outbox: map<ClientId, seq<string>>,   // the frames sent on each accepted socket
    handled: seq<(HandlerId, Json)>)      // the calls made to onMessage, in order

  /** The constructor's state: no server, no clients, no handler. */
  function Init(): (s: State)
    ensures s.wss == None && s.clients == [] && s.onMessage == None
  {
    State(None, None, [], None, map[], {}, {}, map[], map[], [])
  }

  predicate NoDup(xs: seq<ClientId>) {
    forall i, j :: 0 <= i < j < |xs| ==> xs[i] != xs[j]
  }

  /**
   * A server that was constructed, bound its port and was not closed still
   * emits 'connection'.
   */
  predicate Listening(s: State, server: ServerId) {
    server in s.servers && server !in s.closed && server !in s.unbound
  }

  /** Some listening server holds `port`, so a new server on it cannot bind. */
  predicate PortHeld(s: State, port: int) {
    exists x | x in s.servers :: Listening(s, x) && s.servers[x] == port
  }

  /** No two listening servers share a port. */
  ghost predicate PortsDistinct(s: State) {
    forall x, y :: Listening(s, x) && Listening(s, y) && s.servers[x] == s.servers[y] ==> x == y
  }

  /** The consistency every reachable state keeps. */
  ghost predicate Valid(s: State) {
    NoDup(s.clients) &&
    (forall c :: c in s.clients ==> c in s.readyState) &&
    s.readyState.Keys == s.outbox.Keys &&
    s.closed <= s.servers.Keys && s.unbound <= s.servers.Keys &&
    (s.wss.Some? ==> s.wss.value in s.servers) &&
    (s.ws.Some? ==> s.ws.value in s.servers)
  }

  /** `Set.prototype.delete` on the insertion-ordered client list. */
  function Remove(xs: seq<ClientId>, c: ClientId): (r: seq<ClientId>)
    ensures forall x :: x in r <==> x in xs && x != c
    ensures NoDup(xs) ==> NoDup(r)
    ensures |r| <= |xs|
  {
    if xs == [] then []
    else if xs[0] == c then Remove(xs[1..], c)
    else
      var rest := Remove(xs[1..], c);
      assert NoDup(xs) ==> xs[0] !in xs[1..] && NoDup(xs[1..]);
      [xs[0]] + rest
  }

  /** A client the next broadcast reaches: registered and OPEN. */
  predicate Reached(s: State, c: ClientId) {
    c in s.clients && c in s.readyState && s.readyState[c] == Open
  }

  // ---------------------------------------------------------------- transitions

  /**
   * start(port): the guard reads `ws`, which nothing assigns, so the previous
   * server is not closed; a constructed server replaces `wss`, and it never
   * listens when a listening server already holds the port (the bind fails
   * with EADDRINUSE), nor when another process holds it; a constructor that
   * throws is caught and changes nothing else.
   */
  function StartSpec(s: State, port: int, construction: Construction): (r: State)
    requires !construction.ConstructorThrew? ==> construction.server !in s.servers
    ensures r.ws == None
    ensures s.ws.Some? ==> r.closed == s.closed + {s.ws.value}
    ensures s.ws == None ==> r.closed == s.closed
    ensures r.clients == s.clients && r.onMessage == s.onMessage && r.handled == s.handled
    ensures r.outbox == s.outbox && r.readyState == s.readyState
    ensures !construction.ConstructorThrew? ==>
              r.wss == Some(construction.server) &&
              r.servers == s.servers[construction.server := port]
    ensures construction.Created? && Valid(s) ==>
              (Listening(r, construction.server) <==> !PortHeld(s.(closed := r.closed), port))
    ensures construction.Created? ==>
              (r.unbound == s.unbound || r.unbound == s.unbound + {construction.server})
    ensures construction.CreatedUnbound? ==>
              r.unbound == s.unbound + {construction.server} && !Listening(r, construction.server)
    ensures construction.ConstructorThrew? ==>
              r.wss == s.wss && r.servers == s.servers && r.unbound == s.unbound
    ensures s.ws == None && construction.ConstructorThrew? ==> r == s
  {
    var s1 := if s.ws.Some? then s.(closed := s.closed + {s.ws.value}, ws := None) else s;
    match construction
    case Created(server) =>
      assert PortHeld(s1, port) <==> PortHeld(s.(closed := s1.closed), port) by {
        var t := s.(closed := s1.closed);
        assert forall x :: Listening(s1, x) <==> Listening(t, x);
      }
      var unbound := if PortHeld(s1, port) then s1.unbound + {server} else s1.unbound;
      s1.(wss := Some(server), servers := s1.servers[server := port], unbound := unbound)
    case CreatedUnbound(server) =>
      s1.(wss := Some(server), servers := s1.servers[server := port], unbound := s1.unbound + {server})
    case ConstructorThrew => s1
  }

  /**
   * A 'connection' event: the socket joins the client set and is sent
   * exactly one GET_STORAGE frame.
   */
  function AcceptSpec(s: State, server: ServerId, c: ClientId, codec: Codec): (r: State)
    requires Listening(s, server) && c !in s.readyState
    ensures r.clients == s.clients + [c]
    ensures r.outbox == s.outbox[c := [codec.serialize(GetStorage)]]
    ensures r.readyState == s.readyState[c := Open]
    ensures r.wss == s.wss && r.ws == s.ws && r.servers == s.servers && r.closed == s.closed
    ensures r.unbound == s.unbound && r.onMessage == s.onMessage && r.handled == s.handled
  {
    s.(clients := s.clients + [c],
       readyState := s.readyState[c := Open],
       outbox := s.outbox[c := [codec.serialize(GetStorage)]])
  }

  /**
   * The outboxes after `frame` is sent, in order, to each socket of `targets`
   * that is OPEN when its turn comes.
   */
  function Delivered(outbox: map<ClientId, seq<string>>, targets: seq<ClientId>,
                     readyState: map<ClientId, ReadyState>, frame: string): (r: map<ClientId, seq<string>>)
    ensures r.Keys == outbox.Keys
    decreases |targets|
  {
    if targets == [] then outbox
    else
      var rest := Delivered(outbox, targets[..|targets| - 1], readyState, frame);
      var c := targets[|targets| - 1];
      if c in rest && c in readyState && readyState[c] == Open then rest[c := rest[c] + [frame]]
      else rest
  }

  /**
   * With no socket listed twice, each known socket receives the frame exactly
   * once when it is listed and OPEN, and nothing otherwise.
   */
  lemma {:induction false} DeliveredAt(outbox: map<ClientId, seq<string>>, targets: seq<ClientId>,
                                       readyState: map<ClientId, ReadyState>, frame: string,
                                       c: ClientId)
    requires NoDup(targets) && c in outbox
    ensures var r := Delivered(outbox, targets, readyState, frame);
            c in r &&
            r[c] == outbox[c] + (if c in targets && c in readyState && readyState[c] == Open
                                 then [frame] else [])
    decreases |targets|
  {
    if targets != [] {
      var init := targets[..|targets| - 1];
      var last := targets[|targets| - 1];
      assert NoDup(init);
      DeliveredAt(outbox, init, readyState, frame, c);
      assert targets == init + [last];
      assert last !in init;
      assert c in targets <==> c in init || c == last;
    }
  }

  /** broadcast(frame): appends the frame for every registered OPEN client. */
  function BroadcastSpec(s: State, frame: string): (r: State)
    ensures r == s.(outbox := r.outbox)
    ensures r.outbox.Keys == s.outbox.Keys
  {
    s.(outbox := Delivered(s.outbox, s.clients, s.readyState, frame))
  }

  /**
   * A 'message' event: a frame that does not parse changes nothing; one that
   * parses goes to onMessage when set and is then broadcast, unless the
   * handler threw (the same catch swallows it and the broadcast is skipped).
   */
  function ReceiveSpec(s: State, c: ClientId, raw: string, handlerThrows: bool,
                       codec: Codec): (r: State)
    requires c in s.readyState
    ensures codec.parse(raw).None? ==> r == s
    ensures r.clients == s.clients && r.wss == s.wss && r.ws == s.ws && r.readyState == s.readyState
    ensures r.servers == s.servers && r.closed == s.closed && r.unbound == s.unbound
    ensures r.onMessage == s.onMessage
    ensures r.outbox.Keys == s.outbox.Keys
    ensures codec.parse(raw).Some? && s.onMessage.Some? ==>
              r.handled == s.handled + [(s.onMessage.value, codec.parse(raw).value)]
    ensures s.onMessage.None? ==> r.handled == s.handled
    ensures codec.parse(raw).Some? && s.onMessage.Some? && handlerThrows ==> r.outbox == s.outbox
    ensures codec.parse(raw).Some? && !(s.onMessage.Some? && handlerThrows) ==>
              r.outbox == Delivered(s.outbox, s.clients, s.readyState,
                                    codec.serialize(codec.parse(raw).value))
  {
    match codec.parse(raw)
    case None => s
    case Some(data) =>
      var s1 := if s.onMessage.Some? then s.(handled := s.handled + [(s.onMessage.value, data)])
                else s;
      if s.onMessage.Some? && handlerThrows then s1
      else BroadcastSpec(s1, codec.serialize(data))
  }

  /** A 'close' event: the socket is CLOSED and leaves the client set. */
  function CloseSpec(s: State, c: ClientId): (r: State)
    requires c in s.readyState
    ensures r.clients == Remove(s.clients, c)
    ensures r.readyState == s.readyState[c := Closed]
    ensures r == s.(clients := r.clients, readyState := r.readyState)
  {
    s.(clients := Remove(s.clients, c), readyState := s.readyState[c := Closed])
  }

  /** The peer starts the closing handshake: the socket is CLOSING and still registered. */
  function ClosingSpec(s: State, c: ClientId): (r: State)
    requires c in s.readyState
    ensures r == s.(readyState := s.readyState[c := ReadyState.Closing])
  {
    s.(readyState := s.readyState[c := ReadyState.Closing])
  }

  /** stop(): with a server, close it, forget it and clear the clients; otherwise nothing. */
  function StopSpec(s: State): (r: State)
    ensures r.wss == None
    ensures s.wss.Some? ==> r.clients == [] && r.closed == s.closed + {s.wss.value}
    ensures s.wss.None? ==> r == s
    ensures r.outbox == s.outbox && r.readyState == s.readyState && r.servers == s.servers
    ensures r.unbound == s.unbound && r.ws == s.ws
    ensures r.onMessage == s.onMessage && r.handled == s.handled
  {
    if s.wss.Some? then s.(closed := s.closed + {s.wss.value}, wss := None, clients := [])
    else s
  }

  /** Assigning `onMessage` from outside. */
  function SetOnMessageSpec(s: State, handler: Option<HandlerId>): (r: State)
    ensures r == s.(onMessage := handler)
  {
    s.(onMessage := handler)
  }

  // ---------------------------------------------------------------- properties of single steps

  lemma {:induction false} StopIdempotent(s: State)
    ensures StopSpec(StopSpec(s)) == StopSpec(s)
  {
  }

  /**
   * A broadcast appends the frame to the outbox of every registered OPEN
   * client and of no other socket; nothing else changes.
   */
  lemma {:induction false} BroadcastReachesExactlyOpen(s: State, frame: string, c: ClientId)
    requires c in s.outbox && NoDup(s.clients)
    ensures var r := BroadcastSpec(s, frame);
            c in r.outbox &&
            (Reached(s, c) ==> r.outbox[c] == s.outbox[c] + [frame]) &&
            (!Reached(s, c) ==> r.outbox[c] == s.outbox[c]) &&
            r.clients == s.clients
  {
    DeliveredAt(s.outbox, s.clients, s.readyState, frame, c);
  }

  /** A close removes its own client and keeps every other one. */
  lemma {:induction false} CloseRemovesOnlyItself(s: State, c: ClientId)
    requires c in s.readyState && Valid(s)
    ensures var r := CloseSpec(s, c);
            c !in r.clients &&
            (forall x :: x in s.clients && x != c ==> x in r.clients) &&
            |r.clients| == |s.clients| - (if c in s.clients then 1 else 0)
  {
    RemoveLength(s.clients, c);
  }

  lemma {:induction false} RemoveLength(xs: seq<ClientId>, c: ClientId)
    requires NoDup(xs)
    ensures |Remove(xs, c)| == |xs| - (if c in xs then 1 else 0)
  {
    if xs != [] {
      assert NoDup(xs[1..]);
      RemoveLength(xs[1..], c);
      if xs[0] == c {
        assert c !in xs[1..];
      }
    }
  }

  /**
   * A parsed message reaches onMessage (when set) and then every registered
   * OPEN client, the sender included, and no other socket; only a handler
   * that throws stops the broadcast.
   */
  lemma {:induction false} ReceiveParsedRelays(s: State, c: ClientId, raw: string,
                                               handlerThrows: bool, codec: Codec, d: ClientId)
    requires Valid(s) && c in s.readyState && codec.parse(raw).Some? && d in s.outbox
    ensures var frame := codec.serialize(codec.parse(raw).value);
            var r := ReceiveSpec(s, c, raw, handlerThrows, codec);
            d in r.outbox && r.clients == s.clients &&
            (s.onMessage.Some? && handlerThrows ==> r.outbox[d] == s.outbox[d]) &&
            (!(s.onMessage.Some? && handlerThrows) ==>
               (Reached(s, d) ==> r.outbox[d] == s.outbox[d] + [frame]) &&
               (!Reached(s, d) ==> r.outbox[d] == s.outbox[d]))
  {
    DeliveredAt(s.outbox, s.clients, s.readyState, codec.serialize(codec.parse(raw).value), d);
  }

  /**
   * Restarting a running relay overwrites `wss` and keeps the previous server
   * listening with the same clients: the guard reads `ws`, which is never
   * set. The new server listens exactly when its port is free; on the port
   * the previous server holds it never does.
   */
  lemma {:induction false} RestartKeepsPreviousServer(s: State, port: int, next: ServerId)
    requires Valid(s) && s.ws == None && s.wss.Some? && Listening(s, s.wss.value)
    requires next !in s.servers
    ensures var r := StartSpec(s, port, Created(next));
            r.wss == Some(next) && Listening(r, s.wss.value) && r.clients == s.clients &&
            (Listening(r, next) <==> !PortHeld(s, port)) &&
            (port == s.servers[s.wss.value] ==> !Listening(r, next))
  {
    assert port == s.servers[s.wss.value] ==> PortHeld(s, port);
  }

  /**
   * After a same-port restart, `stop` closes only the new server: the
   * previous one keeps listening, and nothing can reach it any more.
   */
  lemma {:induction false} StopAfterRestartLeavesPrevious(s: State, next: ServerId)
    requires Valid(s) && s.ws == None && s.wss.Some? && Listening(s, s.wss.value)
    requires next !in s.servers
    ensures var r := StopSpec(StartSpec(s, s.servers[s.wss.value], Created(next)));
            r.wss == None && Listening(r, s.wss.value) && !Listening(r, next)
  {
    RestartKeepsPreviousServer(s, s.servers[s.wss.value], next);
  }

  // ---------------------------------------------------------------- traces

  /** One event the relay reacts to. */
  datatype Event =
    | StartCalled(port: int, construction: Construction)
    | Connection(server: ServerId, client: ClientId)
    | MessageArrived(client: ClientId, raw: string, handlerThrows: bool)
    | ClientClosed(client: ClientId)
    | ClientClosing(client: ClientId)
    | BroadcastCalled(message: Json)
    | StopCalled
    | HandlerAssigned(handler: Option<HandlerId>)

  /** The event can occur in state `s`. */
  predicate Enabled(s: State, e: Event) {
    match e
    case StartCalled(_, construction) => !construction.ConstructorThrew? ==> construction.server !in s.servers
    case Connection(server, c) => Listening(s, server) && c !in s.readyState
    case MessageArrived(c, _, _) => c in s.readyState
    case ClientClosed(c) => c in s.readyState
    case ClientClosing(c) => c in s.readyState
    case BroadcastCalled(_) => true
    case StopCalled => true
    case HandlerAssigned(_) => true
  }

  function Next(s: State, e: Event, codec: Codec): State
    requires Enabled(s, e)
  {
    match e
    case StartCalled(port, construction) => StartSpec(s, port, construction)
    case Connection(server, c) => AcceptSpec(s, server, c, codec)
    case MessageArrived(c, raw, handlerThrows) => ReceiveSpec(s, c, raw, handlerThrows, codec)
    case ClientClosed(c) => CloseSpec(s, c)
    case ClientClosing(c) => ClosingSpec(s, c)
    case BroadcastCalled(message) => BroadcastSpec(s, codec.serialize(message))
    case StopCalled => StopSpec(s)
    case HandlerAssigned(handler) => SetOnMessageSpec(s, handler)
  }

  /** Every event of the trace can occur when its turn comes. */
  predicate Executable(s: State, trace: seq<Event>, codec: Codec)
    decreases |trace|
  {
    trace == [] || (Enabled(s, trace[0]) && Executable(Next(s, trace[0], codec), trace[1..], codec))
  }

  function Run(s: State, trace: seq<Event>, codec: Codec): State
    requires Executable(s, trace, codec)
    decreases |trace|
  {
    if trace == [] then s else Run(Next(s, trace[0], codec), trace[1..], codec)
  }

  /** Each accepted socket's first frame is the GET_STORAGE request. */
  predicate GreetedFirst(s: State, codec: Codec) {
    forall c :: c in s.outbox ==>
      |s.outbox[c]| >= 1 && s.outbox[c][0] == codec.serialize(GetStorage)
  }

  /** What every state reached from the constructor's keeps. */
  ghost predicate Reachable(s: State, codec: Codec) {
    Valid(s) && s.ws == None && PortsDistinct(s) && GreetedFirst(s, codec)
  }

  lemma {:induction false} InitReachable(codec: Codec)
    ensures Reachable(Init(), codec)
  {
  }

  lemma {:induction false} BroadcastKeepsReachable(s: State, frame: string, codec: Codec)
    requires Reachable(s, codec)
    ensures Reachable(BroadcastSpec(s, frame), codec)
  {
    var r := BroadcastSpec(s, frame);
    forall c | c in r.outbox
      ensures |r.outbox[c]| >= 1 && r.outbox[c][0] == codec.serialize(GetStorage)
    {
      DeliveredAt(s.outbox, s.clients, s.readyState, frame, c);
    }
  }

  lemma {:induction false} StartKeepsReachable(s: State, port: int, construction: Construction,
                                               codec: Codec)
    requires Reachable(s, codec)
    requires !construction.ConstructorThrew? ==> construction.server !in s.servers
    ensures Reachable(StartSpec(s, port, construction), codec)
  {
    var r := StartSpec(s, port, construction);
    assert r.closed == s.closed && r.outbox == s.outbox;
    if !construction.ConstructorThrew? {
      var n := construction.server;
      forall x, y | Listening(r, x) && Listening(r, y) && r.servers[x] == r.servers[y]
        ensures x == y
      {
        assert x != n ==> Listening(s, x) && s.servers[x] == r.servers[x];
        assert y != n ==> Listening(s, y) && s.servers[y] == r.servers[y];
      }
    }
  }

  lemma {:induction false} AcceptKeepsReachable(s: State, server: ServerId, c: ClientId, codec: Codec)
    requires Reachable(s, codec) && Listening(s, server) && c !in s.readyState
    ensures Reachable(AcceptSpec(s, server, c, codec), codec)
  {
    var r := AcceptSpec(s, server, c, codec);
    assert c !in s.clients;
    assert NoDup(r.clients);
    assert forall x :: x in r.clients ==> x in s.clients || x == c;
  }

  lemma {:induction false} CloseKeepsReachable(s: State, c: ClientId, codec: Codec)
    requires Reachable(s, codec) && c in s.readyState
    ensures Reachable(CloseSpec(s, c), codec)
  {
  }

  lemma {:induction false} ReceiveKeepsReachable(s: State, c: ClientId, raw: string,
                                                 handlerThrows: bool, codec: Codec)
    requires Reachable(s, codec) && c in s.readyState
    ensures Reachable(ReceiveSpec(s, c, raw, handlerThrows, codec), codec)
  {
    if codec.parse(raw).Some? {
      var data := codec.parse(raw).value;
      var s1 := if s.onMessage.Some? then s.(handled := s.handled + [(s.onMessage.value, data)])
                else s;
      assert Reachable(s1, codec);
      BroadcastKeepsReachable(s1, codec.serialize(data), codec);
    }
  }

  lemma {:induction false} NextKeepsReachable(s: State, e: Event, codec: Codec)
    requires Reachable(s, codec) && Enabled(s, e)
    ensures Reachable(Next(s, e, codec), codec)
  {
    match e
    case StartCalled(port, construction) => StartKeepsReachable(s, port, construction, codec);
    case Connection(server, c) => AcceptKeepsReachable(s, server, c, codec);
    case MessageArrived(c, raw, handlerThrows) => ReceiveKeepsReachable(s, c, raw, handlerThrows, codec);
    case ClientClosed(c) => CloseKeepsReachable(s, c, codec);
    case ClientClosing(c) =>
    case BroadcastCalled(message) => BroadcastKeepsReachable(s, codec.serialize(message), codec);
    case StopCalled =>
    case HandlerAssigned(handler) =>
  }

  /**
   * Along any trace the relay can run, the invariant holds, `ws` is never
   * set (so the restart guard never fires), and every socket's first frame
   * stays the GET_STORAGE request.
   */
  lemma {:induction false} RunKeepsReachable(s: State, trace: seq<Event>, codec: Codec)
    requires Reachable(s, codec) && Executable(s, trace, codec)
    ensures Reachable(Run(s, trace, codec), codec)
    decreases |trace|
  {
    if trace != [] {
      NextKeepsReachable(s, trace[0], codec);
      RunKeepsReachable(Next(s, trace[0], codec), trace[1..], codec);
    }
  }

  /** From the constructor's state, no trace ever closes a server through the restart guard. */
  lemma {:induction false} StartNeverClosesFromInit(trace: seq<Event>, codec: Codec, port: int,
                                                    construction: Construction)
    requires Executable(Init(), trace, codec)
    requires Enabled(Run(Init(), trace, codec), StartCalled(port, construction))
    ensures var s := Run(Init(), trace, codec);
            StartSpec(s, port, construction).closed == s.closed
  {
    InitReachable(codec);
    RunKeepsReachable(Init(), trace, codec);
  }
}

=== FILE: text.dfy ===
/**
 * The JavaScript string operations the request-row helpers use:
 * `trim`, the first piece of `split(sep)`, `includes`, `startsWith` and the
 * comparison `key.toLowerCase() === word`.
 */
module Text {

  /**
   * ECMAScript WhiteSpace and LineTerminator code points, the set `trim`
   * removes: tab, line feed, vertical tab, form feed, carriage return, space,
   * no-break space, the Zs separators, line and paragraph separators and the
   * byte order mark.
   */
  predicate IsWhitespace(c: char) {
    var n := c as int;
    (0x09 <= n <= 0x0D) || n == 0x20 || n == 0xA0 || n == 0x1680 ||
    (0x2000 <= n <= 0x200A) || n == 0x2028 || n == 0x2029 || n == 0x202F ||
    n == 0x205F || n == 0x3000 || n == 0xFEFF
  }

  predicate AllWhitespace(s: string) {
    forall i :: 0 <= i < |s| ==> IsWhitespace(s[i])
  }

  /** Neither end of `s` is whitespace. */
  predicate IsTrimmed(s: string) {
    s == [] || (!IsWhitespace(s[0]) && !IsWhitespace(s[|s| - 1]))
  }

  /** A character outside the Basic Multilingual Plane: a surrogate pair in UTF-16. */
  predicate IsAstral(c: char) {
    c as int >= 0x1_0000
  }

  /**
   * `String.prototype.length`: the number of UTF-16 code units, two for each
   * astral character and one for every other.
   */
  function JsLength(s: string): (n: nat)
    ensures |s| <= n <= 2 * |s|
    ensures (forall i :: 0 <= i < |s| ==> !IsAstral(s[i])) ==> n == |s|
    ensures (forall i :: 0 <= i < |s| ==> IsAstral(s[i])) ==> n == 2 * |s|
  {
    if s == [] then 0
    else
      var rest := JsLength(s[1..]);
      assert forall i :: 0 <= i < |s[1..]| ==> s[1..][i] == s[i + 1];
      (if IsAstral(s[0]) then 2 else 1) + rest
  }

  /** `s` with its leading whitespace removed. */
  function TrimStart(s: string): (r: string)
    ensures |r| <= |s| && r == s[|s| - |r|..]
    ensures AllWhitespace(s[..|s| - |r|])
    ensures r == [] || !IsWhitespace(r[0])
  {
    if s != [] && IsWhitespace(s[0]) then
      var r := TrimStart(s[1..]);
      var n := |s| - |r|;
      assert s[1..][n - 1..] == s[n..];
      assert AllWhitespace(s[..n]) by {
        var lead := s[1..][..n - 1];
        assert AllWhitespace(lead);
        forall k | 0 <= k < n
          ensures IsWhitespace(s[..n][k])
        {
          if k > 0 {
            assert s[..n][k] == lead[k - 1];
          }
        }
      }
      r
    else s
  }

  /** `s` with its trailing whitespace removed. */
  function TrimEnd(s: string): (r: string)
    ensures |r| <= |s| && r == s[..|r|]
    ensures AllWhitespace(s[|r|..])
    ensures r == [] || !IsWhitespace(r[|r| - 1])
  {
    if s != [] && IsWhitespace(s[|s| - 1]) then
      var r := TrimEnd(s[..|s| - 1]);
      assert s[..|s| - 1][..|r|] == s[..|r|];
      assert s[|r|..] == s[..|s| - 1][|r|..] + [s[|s| - 1]];
      r
    else s
  }

  /** `r` stands at offset `i` of `s` with only whitespace around it. */
  predicate WhitespaceAround(s: string, r: string, i: int) {
    0 <= i <= |s| - |r| && r == s[i..i + |r|] &&
    AllWhitespace(s[..i]) && AllWhitespace(s[i + |r|..])
  }

  /** `String.prototype.trim`: the text between the leading and trailing whitespace. */
  function Trim(s: string): (r: string)
    ensures IsTrimmed(r)
    ensures exists i :: WhitespaceAround(s, r, i)
  {
    var t := TrimStart(s);
    var r := TrimEnd(t);
    var i := |s| - |t|;
    assert r == s[i..i + |r|];
    assert s[i + |r|..] == t[|r|..];
    assert r != [] ==> r[0] == t[0];
    assert WhitespaceAround(s, r, i);
    r
  }

  /** Trimming text that is already trimmed changes nothing. */
  lemma {:induction false} TrimFixesTrimmed(s: string)
    requires IsTrimmed(s)
    ensures Trim(s) == s
  {
  }

  lemma {:induction false} TrimIdempotent(s: string)
    ensures Trim(Trim(s)) == Trim(s)
  {
    TrimFixesTrimmed(Trim(s));
  }

  /** Trimming introduces no character that `s` lacks. */
  lemma {:induction false} TrimAvoids(s: string, c: char)
    requires c !in s
    ensures c !in Trim(s)
  {
    var r := Trim(s);
    var i :| WhitespaceAround(s, r, i);
    forall k | 0 <= k < |r|
      ensures r[k] != c
    {
      assert r[k] == s[i + k];
    }
  }

  /** The first element of `s.split(sep)` for a one-character separator. */
  function BeforeFirst(s: string, sep: char): (r: string)
    ensures r <= s
    ensures sep !in r
    ensures r == s || s[|r|] == sep
  {
    if s == [] || s[0] == sep then [] else [s[0]] + BeforeFirst(s[1..], sep)
  }

  /** Text without the separator is its own first piece. */
  lemma {:induction false} BeforeFirstWithoutSep(s: string, sep: char)
    requires sep !in s
    ensures BeforeFirst(s, sep) == s
  {
    if s != [] {
      assert sep !in s[1..];
      BeforeFirstWithoutSep(s[1..], sep);
    }
  }

  /** `String.prototype.includes`. */
  predicate Contains(s: string, part: string)
    decreases |s|
  {
    if |s| < |part| then false else s[..|part|] == part || Contains(s[1..], part)
  }

  /** `part` occurs in `s` starting at offset `i`. */
  predicate OccursAt(s: string, part: string, i: int) {
    0 <= i <= |s| - |part| && s[i..i + |part|] == part
  }

  /** `includes` holds exactly when `part` occurs at some offset. */
  lemma {:induction false} ContainsAt(s: string, part: string)
    ensures Contains(s, part) <==> exists i :: OccursAt(s, part, i)
    decreases |s|
  {
    if |s| >= |part| {
      if s[..|part|] == part {
        assert OccursAt(s, part, 0);
      } else {
        assert |s| >= 1;
        ContainsAt(s[1..], part);
        if Contains(s[1..], part) {
          var i :| OccursAt(s[1..], part, i);
          assert OccursAt(s, part, i + 1);
        }
        if exists i :: OccursAt(s, part, i) {
          var i :| OccursAt(s, part, i);
          assert i != 0;
          assert OccursAt(s[1..], part, i - 1);
        }
      }
    }
  }

  /** `String.prototype.startsWith` for a one-character prefix. */
  predicate StartsWithChar(s: string, c: char) {
    |s| >= 1 && s[0] == c
  }

  function LowerAscii(c: char): (r: char)
    ensures 'A' <= c <= 'Z' ==> 'a' <= r <= 'z'
    ensures !('A' <= c <= 'Z') ==> r == c
  {
    if 'A' <= c <= 'Z' then (c as int + 32) as char else c
  }

  /**
   * `s.toLowerCase() === word` for a word of lower-case ASCII letters: the
   * two have equal length and agree letter by letter once `s` is lowered.
   */
  predicate EqualsLowered(s: string, word: string) {
    |s| == |word| && forall i :: 0 <= i < |s| ==> LowerAscii(s[i]) == word[i]
  }
}

=== FILE: websocket_server.dfy ===
/**
 * The singleton relay as an object: its fields are updated in place by
 * `start`, `broadcast`, `stop` and the socket event handlers. Each method
 * is proved to perform the corresponding transition of `ServerState`.
 */
module WsServer {
  import opened Options
  import opened Json
  import opened ServerState

  class WebSocketServer {
    const codec: Codec
    var wss: Option<ServerId>
    var ws: Option<ServerId>
    var clients: seq<ClientId>
    var onMessage: Option<HandlerId>
    var servers: map<ServerId, int>
    var closed: set<ServerId>
    var unbound: set<ServerId>
    var readyState: map<ClientId, ReadyState>
    var outbox: map<ClientId, seq<string>>
    var handled: seq<(HandlerId, Json)>

    /** The relay's state as a value. */
    function State(): ServerState.State
      reads this
    {
      ServerState.State(wss, ws, clients, onMessage, servers, closed, unbound, readyState, outbox,
                        handled)
    }

    ghost predicate Valid()
      reads this
    {
      ServerState.Valid(State())
    }

    /** A fresh relay: no server, an empty client set and no handler. */
    constructor (codec: Codec)
      ensures Valid() && State() == Init() && this.codec == codec
    {
      this.codec := codec;
      wss, ws, clients, onMessage := None, None, [], None;
      servers, closed, unbound := map[], {}, {};
      readyState, outbox, handled := map[], map[], [];
    }

    /** start(port = 8082); `construction` is what constructing the server does. */
    method Start(construction: Construction, port: int := DefaultPort)
      requires Valid()
      requires !construction.ConstructorThrew? ==> construction.server !in servers
      modifies this
      ensures Valid()
      ensures State() == StartSpec(old(State()), port, construction)
    {
      if ws.Some? {
        closed := closed + {ws.value};
        ws := None;
      }
      match construction
      case Created(server) =>
        if PortHeld(State(), port) {
          unbound := unbound + {server};
        }
        wss := Some(server);
        servers := servers[server := port];
      case CreatedUnbound(server) =>
        unbound := unbound + {server};
        wss := Some(server);
        servers := servers[server := port];
      case ConstructorThrew =>
    }

    /** The 'connection' handler of a listening server, for a new socket `c`. */
    method Accept(server: ServerId, c: ClientId)
      requires Valid() && Listening(State(), server) && c !in readyState
      modifies this
      ensures Valid()
      ensures State() == AcceptSpec(old(State()), server, c, codec)
    {
      assert c !in clients;
      clients := clients + [c];
      readyState := readyState[c := Open];
      outbox := outbox[c := [codec.serialize(GetStorage)]];
    }

    /** broadcast(message): send the serialised message to every registered OPEN client. */
    method Broadcast(message: Json)
      requires Valid()
      modifies this
      ensures Valid()
      ensures State() == BroadcastSpec(old(State()), codec.serialize(message))
    {
      var frame := codec.serialize(message);
      ghost var before := outbox;
      assert clients[..0] == [];
      var i := 0;
      while i < |clients|
        modifies this`outbox
        invariant 0 <= i <= |clients|
        invariant outbox == Delivered(before, clients[..i], readyState, frame)
      {
        var c := clients[i];
        assert c in readyState;
        assert clients[..i + 1][..i] == clients[..i];
        if readyState[c] == Open {
          outbox := outbox[c := outbox[c] + [frame]];
        }
        i := i + 1;
      }
      assert clients[..i] == clients;
      assert outbox == Delivered(before, clients, readyState, frame);
      assert outbox.Keys == readyState.Keys;
    }

    /** The 'message' handler of socket `c`; `handlerThrows` says whether onMessage throws. */
    method Receive(c: ClientId, raw: string, handlerThrows: bool)
      requires Valid() && c in readyState
      modifies this
      ensures Valid()
      ensures State() == ReceiveSpec(old(State()), c, raw, handlerThrows, codec)
    {
      var parsed := codec.parse(raw);
      if parsed.Some? {
        var data := parsed.value;
        if onMessage.Some? {
          handled := handled + [(onMessage.value, data)];
        }
        if !(onMessage.Some? && handlerThrows) {
          Broadcast(data);
        }
      }
    }

    /** The 'close' handler of socket `c`. */
    method Close(c: ClientId)
      requires Valid() && c in readyState
      modifies this
      ensures Valid()
      ensures State() == CloseSpec(old(State()), c)
    {
      clients := Remove(clients, c);
      readyState := readyState[c := Closed];
    }

    /** The peer of socket `c` begins closing; the socket stays registered until 'close'. */
    method BeginClosing(c: ClientId)
      requires Valid() && c in readyState
      modifies this
      ensures Valid()
      ensures State() == ClosingSpec(old(State()), c)
    {
      readyState := readyState[c := ReadyState.Closing];
    }

    /** stop(). */
    method Stop()
      requires Valid()
      modifies this
      ensures Valid()
      ensures State() == StopSpec(old(State()))
    {
      if wss.Some? {
        closed := closed + {wss.value};
        wss := None;
        clients := [];
      }
    }

    /** `wsServer.onMessage = handler`. */
    method SetOnMessage(handler: Option<HandlerId>)
      requires Valid()
      modifies this
      ensures Valid()
      ensures State() == SetOnMessageSpec(old(State()), handler)
    {
      onMessage := handler;
    }
  }
}
